=== FILE: README.md ===
# ressitPosApi core, modelled in Dafny

The point-of-sale backend keeps five independent document collections
(admins, categories, products, orders, settings) and offers create / list /
get / replace / delete handlers over them, a credential check, and an
end-of-day "Z report". This project models the part of `ressitPosApi/Program.cs`
that carries logic:

- **Sequence assigner** (`sequence_assigner.dfy`): every create handler reads the
  record with the highest id and gives the new record that id plus one, or 1 in
  an empty collection. Ids are C# `int`s (`Records.Int32`), and `+ 1` wraps at
  int.MaxValue in C#'s default unchecked context (`Records.Inc32`), so the new id is
  fresh while no id has reached int.MaxValue; past that point every
  create computes int.MinValue.
- **Store** (`store.dfy`): a collection is an object `Store.Collection<R>` holding a
  `seq<R>` in store order and the function that reads a record's id. Its methods
  are the single-document operations the handlers use, with the handlers'
  answers: get returns the first record with the id or not found, replace
  overwrites the first match with the whole supplied record and answers Ok only
  when the stored document changed (the `ModifiedCount > 0` test), delete removes
  the first match or reports not found and leaves the collection unchanged.
- **Handlers** (`handlers.dfy`): the five create handlers (id assignment; for
  products and orders the loop that renumbers variations 1, 2, 3, … when
  `HasVariations` is set and a list is present; for orders the parsing of the
  order date), and login, which returns a profile without the password hash when
  an admin matches both username and hash.
- **Z report** (`zreport.dfy`): the day window `[date 00:00:00, date 23:59:59]`, the
  orders placed in it, their count and total, the gross / net / tax split of the
  orders whose `TaxValue` is exactly 2.6 or exactly 8.1, and the grouping of the
  day's orders by category name. It is written as recursive functions over
  `seq<Order>`, with lemmas for the conservation laws: the tax groups and the
  remaining orders partition the day's orders, net + tax = gross, and the
  category groups have distinct names, at least one order each, and counts and
  amounts that add up to the day's totals.

Money is `real`. The source uses `decimal`, whose sums are exact at these magnitudes; the net division rounds, and the model divides exactly.
Timestamps are whole seconds since 0001-01-01 00:00:00 (`nat`). Order dates are
parsed from a minute-precision format, so second granularity loses nothing when
orders are compared with the window.

Points of the code's behaviour worth noting:

- The category groups are computed (`Program.cs:257-263`) but the report object
  built at `Program.cs:265-302` does not contain them. `ZReport.GenerateZReport`
  likewise returns no groups. `ZReport.CategoryGroups` computes them separately, with their laws proved.
- The tax groups are selected by `TaxValue` equal to the percentages 2.6 and 8.1,
  but the division uses the fractions 0.026 and 0.081. `ZReport.TaxRate` keeps both numbers.

## Model

| member | source | states |
|---|---|---|
| `Records.Inc32` | ressitPosApi/Program.cs:72 | the unchecked C# `Id + 1`: the exact sum reduced to 32-bit two's complement (modulo 2^32 into [int.MinValue, int.MaxValue]); hence the successor below int.MaxValue and int.MinValue at int.MaxValue |
| `SequenceAssigner.MaxKey` | ressitPosApi/Program.cs:68-70 | the id of the first record sorted by descending id: it is some record's id, and no record's id exceeds it |
| `SequenceAssigner.NextId` | ressitPosApi/Program.cs:72 | 1 for an empty collection; otherwise, while every id is below int.MaxValue, some existing id plus one, greater than every id (hence fresh); int.MinValue once int.MaxValue is taken |
| `SequenceAssigner.NextIdIsMaxPlusOne` | ressitPosApi/Program.cs:68-72 | ids 1, 3, 5 give 6: the maximum plus one, not the count plus one |
| `SequenceAssigner.IdRepeatsAfterWrap` | ressitPosApi/Program.cs:72 | once int.MaxValue is taken, two successive creates both compute int.MinValue |
| `Store.FirstIndex` | ressitPosApi/Program.cs:86 | none exactly when no record has the id; otherwise the position of the first record with the id |
| `Store.CreatedIsFound` | ressitPosApi/Program.cs:72-74 | while no id has reached int.MaxValue, a record inserted with the assigned id is the first (and only) match for that id afterwards, so a later get returns it unchanged |
| `Store.CreateKeepsKeysUnique` | ressitPosApi/Program.cs:68-74 | inserting a record with the assigned id keeps ids pairwise distinct while no id has reached int.MaxValue |
| `Store.Collection.GetAll` | ressitPosApi/Program.cs:80-81 | every record, in store order |
| `Store.Collection.First` | ressitPosApi/Program.cs:230-231 | the first record, or none exactly when the collection is empty |
| `Store.Collection.Get` | ressitPosApi/Program.cs:86-87 | not found exactly when no record has the id; otherwise the first record with that id |
| `Store.Collection.Insert` | ressitPosApi/Program.cs:74 | the record is appended; nothing else changes |
| `Store.Collection.Replace` | ressitPosApi/Program.cs:92-93 | an absent id gives not found and no change (no record is created); otherwise the first match is overwritten by the whole supplied record, and the answer is Ok(record) exactly when the stored record differed from it |
| `Store.Collection.Delete` | ressitPosApi/Program.cs:98-99 | deleted exactly when some record has the id; then the first match is removed and the rest kept in order; otherwise the collection is unchanged |
| `Handlers.RenumberVariations` | ressitPosApi/Program.cs:150-154 | same length; the variation at position i gets id i + 1; names and prices unchanged |
| `Handlers.AssignVariationIds` | ressitPosApi/Program.cs:148-155 | renumbering happens exactly when HasVariations is set and a list is present; otherwise the list (or its absence) is untouched |
| `Handlers.CreateAdmin` | ressitPosApi/Program.cs:66-76 | the admin is stored at the end with id NextId of the collection as it was, all other fields as supplied, and ids stay unique while no id has reached int.MaxValue |
| `Handlers.CreateCategory` | ressitPosApi/Program.cs:103-113 | as CreateAdmin, for categories |
| `Handlers.CreateProduct` | ressitPosApi/Program.cs:140-159 | as CreateAdmin, and the variation list is renumbered as AssignVariationIds states; no other field changes |
| `Handlers.CreateOrder` | ressitPosApi/Program.cs:186-207 | an unparsable date string fails with nothing stored; otherwise the order is stored with id NextId, the parsed date and renumbered variations, all other fields as supplied |
| `Handlers.CreateSettings` | ressitPosApi/Program.cs:216-226 | as CreateAdmin, for settings |
| `Handlers.Login` | ressitPosApi/Program.cs:40-63 | Unauthorized exactly when no admin has both the username and the hash; otherwise the profile (id, names, restaurant, username; no hash) of the first such admin |
| `ZReport.DayStart` | ressitPosApi/Program.cs:237 | midnight of the timestamp's day: a multiple of 86400 at most the timestamp and less than a day before it |
| `ZReport.DayEnd` | ressitPosApi/Program.cs:238 | 23:59:59 of the same day, the start plus 86399 seconds |
| `ZReport.SameDay` | ressitPosApi/Program.cs:237-238 | a timestamp lies in the closed window exactly when it has the same day start as the report date |
| `ZReport.Where` | ressitPosApi/Program.cs:240-243 | the filtered sequence holds exactly the elements that satisfy the predicate, and is no longer than the input |
| `ZReport.WhereCounts` | ressitPosApi/Program.cs:240-245 | every element satisfying the predicate is kept as many times as it occurs in the input, and no other element is kept, so `Count` and `Sum` see each order once per occurrence |
| `ZReport.WhereAppend` | ressitPosApi/Program.cs:240-243 | filtering a concatenation gives the filtered parts one after the other, so the input order is kept |
| `ZReport.SumTotal` | ressitPosApi/Program.cs:247-255 | `Sum(o => o.TotalPrice)`, zero for no orders; `ZReport.SumTotalAppend` and `ZReport.TaxGroupsPartition` state its laws |
| `ZReport.SumTotalAppend` | ressitPosApi/Program.cs:247-255 | the total of a concatenation is the sum of the parts' totals |
| `ZReport.DayOrders` | ressitPosApi/Program.cs:240 | the orders the report reads; `ZReport.DayOrdersAreThatDay` states which ones, `ZReport.WhereCounts` how often and `ZReport.WhereAppend` in what order |
| `ZReport.DayOrdersAreThatDay` | ressitPosApi/Program.cs:240 | an order is read by the report exactly when start <= OrderDate <= start + 86399, that is, when it was placed on the report's day |
| `ZReport.TaxGroup` | ressitPosApi/Program.cs:242-243 | the orders whose `TaxValue` equals the rate's percentage; `ZReport.TaxGroupsPartition` states how the groups split the day |
| `ZReport.OtherRates` | ressitPosApi/Program.cs:242-255 | the day's orders in neither tax group, which still count in the totals; `ZReport.TaxGroupsPartition` states the split |
| `ZReport.TaxGroupsPartition` | ressitPosApi/Program.cs:242-255 | the 2.6 and 8.1 groups are disjoint subsets of the orders; with the orders of any other rate they split both the order count and the total sales |
| `ZReport.Breakdown` | ressitPosApi/Program.cs:247-253 | gross is the group's total; net times (1 + rate) is gross; net + tax is gross |
| `ZReport.AddToGroups` | ressitPosApi/Program.cs:257-263 | one `GroupBy` step: the order joins its category's group or opens one at the end; the `ZReport.AddToGroups*` lemmas below state its laws |
| `ZReport.GroupInto` | ressitPosApi/Program.cs:257-263 | folds a run of orders into the groups; the `ZReport.GroupInto*` lemmas below state its laws |
| `ZReport.GroupByCategory` | ressitPosApi/Program.cs:257-263 | `GroupBy(o => o.CategoryName).Select(...)`; `ZReport.CategoryGroupsSpec` checks it against the `ZReport.OfCategory` filter |
| `ZReport.AddToGroupsTotals` | ressitPosApi/Program.cs:257-263 | adding an order to the groups raises the summed count by one and the summed amount by its total price |
| `ZReport.AddToGroupsOf` | ressitPosApi/Program.cs:257-263 | adding an order raises the count and amount of its own category only |
| `ZReport.AddToGroupsNames` | ressitPosApi/Program.cs:257 | adding an order adds its category to the set of group names |
| `ZReport.AddToGroupsDistinct` | ressitPosApi/Program.cs:257 | adding an order never creates a second group for a name |
| `ZReport.AddToGroupsNonEmpty` | ressitPosApi/Program.cs:261 | adding an order keeps every group's count at least 1 |
| `ZReport.GroupIntoTotals` | ressitPosApi/Program.cs:257-263 | grouping a sequence adds its length to the summed count and its total to the summed amount |
| `ZReport.GroupIntoOf` | ressitPosApi/Program.cs:257-263 | grouping adds to each category's count and amount exactly that category's orders |
| `ZReport.GroupIntoNames` | ressitPosApi/Program.cs:257 | grouping adds exactly the orders' category names, and keeps names distinct and counts positive |
| `ZReport.CategoryGroupsSpec` | ressitPosApi/Program.cs:257-263 | one group per category name that occurs and no other; each group counts and sums exactly the orders of its category and has at least one; the counts add up to the number of orders and the amounts to their total |
| `ZReport.CategoryGroups` | ressitPosApi/Program.cs:257-263 | the day's category groups: their counts add up to the report's order count, their amounts to its total sales; names distinct, counts at least 1 |
| `ZReport.GenerateZReport` | ressitPosApi/Program.cs:235-304 | window = [day start, day start + 86399] containing the report date; total = count and sum of the day's orders; food bucket = total; each tax line's gross is its group's sum, net times 1.026 or 1.081 is gross, net + tax = gross; the two grosses plus the other rates' sum give the total sales |
| `ZReport.EmptyDayReport` | ressitPosApi/Program.cs:245-255 | a day without orders reports 0 orders and zero in every amount |
| `ZReport.ZReportExample` | ressitPosApi/Program.cs:240-255 | orders of 100 and 200 at 8.1 and 50 at 2.6 on the day (plus one the day before) give 3 orders, 350 sold, gross 300 with net 300/1.081, and gross 50 with net 50/1.026 |

## Left out

- HTTP routing, CORS, Swagger and the `Results.*` responses (`Program.cs:4-37`, `307`). Ok/NotFound/Unauthorized/Created are the `Option`, `bool` and `Result` values the members return.
- `ressitPosApi/Models/MongoDbContext.cs` (client and collection handles). Handlers receive the `Collection` objects directly.
- `async`/`await` and concurrency. Each handler runs atomically, so the race between reading the highest id and inserting, and the duplicate ids it can produce, is not modelled.
- `DateTime.ParseExact(..., "yyyy-MM-dd / HH:mm", null)`. It is the parameter `parse` of `Handlers.CreateOrder`, a partial function from strings to seconds.
- Exact `decimal` behaviour: 28-29 significant digits, rounding in the net division, and `OverflowException` on very large sums. Amounts are exact reals.
- The `"0.00 TL"` and `"yyyy-MM-dd HH:mm:ss"` formatting of the report. The report holds the numbers and timestamps.
- MongoDB's own rules on `_id`: the unique index and the refusal to change `_id` in a replace. `Store.Collection.Replace` stores whatever record it is given.
- Time zones and the driver's UTC conversion of `DateTime` values. Timestamps are compared as plain seconds.
- Null strings. C# string fields may be null; here they are sequences of characters, and a null is not distinguished from any particular string.
- Handlers.RenumberVariations: a `null` element of a request's `Variations` list is not modelled. In the source, `variation.Id = variationId++` (`Program.cs:153`, `201`) throws NullReferenceException on it before `InsertOneAsync`, so the create fails and nothing is stored. A `VariationList` holds only variations, so `Handlers.CreateProduct` and `Handlers.CreateOrder` have no such failure.
- Aliasing inside a variation list. The C# loop writes to each `Variation` object; the model renumbers values. The two differ only if the same object appears twice in a list.

=== FILE: handlers.dfy ===
/** The create and login handlers: id assignment on create, renumbering of
    product and order variations, order-date parsing, and the credential check. */
module Handlers {
  import opened Wrappers
  import opened Records
  import opened SequenceAssigner
  import opened Store

  /** `out` is `vs` with the variation at position i carrying id i + 1, all else kept. */
  ghost predicate Renumbered(vs: VariationList, out: VariationList)
  {
    |out| == |vs| &&
    forall i :: 0 <= i < |vs| ==>
      out[i].id == i + 1 && out[i].name == vs[i].name && out[i].price == vs[i].price
  }

  /** What a create handler does to a variation list: renumber it when the
      record has variations and the list is present, otherwise leave it alone. */
  ghost predicate VariationsAssigned(hasVariations: bool, before: Option<VariationList>, after: Option<VariationList>)
  {
    if hasVariations && before.Some? then after.Some? && Renumbered(before.value, after.value)
    else after == before
  }

  /** The `foreach` loop with its counter `variationId`, starting at 1. */
  method RenumberVariations(vs: VariationList) returns (out: VariationList)
    ensures Renumbered(vs, out)
  {
    out := vs;
    var variationId := 1;
    var i := 0;
    while i < |out|
      invariant 0 <= i <= |out| == |vs|
      invariant variationId == i + 1
      invariant forall j :: 0 <= j < i ==>
        out[j].id == j + 1 && out[j].name == vs[j].name && out[j].price == vs[j].price
      invariant out[i..] == vs[i..]
    {
      assert out[i] == vs[i..][0];
      out := out[i := out[i].(id := variationId)];
      variationId := variationId + 1;
      i := i + 1;
    }
  }

  /** The `if (x.HasVariations && x.Variations != null)` guard around the loop. */
  method AssignVariationIds(hasVariations: bool, variations: Option<VariationList>)
    returns (numbered: Option<VariationList>)
    ensures VariationsAssigned(hasVariations, variations, numbered)
  {
    numbered := variations;
    if hasVariations && variations.Some? {
      var vs := RenumberVariations(variations.value);
      numbered := Some(vs);
    }
  }

  method CreateAdmin(admins: Collection<Admin>, admin: Admin) returns (created: Admin)
    requires admins.key == AdminKey
    modifies admins
    ensures created == admin.(id := NextId(old(admins.records), AdminKey))
    ensures admins.records == old(admins.records) + [created]
    ensures UniqueKeys(old(admins.records), AdminKey) && BelowIdLimit(old(admins.records), AdminKey) ==>
      UniqueKeys(admins.records, AdminKey)
  {
    created := admin.(id := NextId(admins.records, admins.key));
    CreateKeepsKeysUnique(admins.records, AdminKey, created);
    admins.Insert(created);
  }

  method CreateCategory(categories: Collection<Category>, category: Category) returns (created: Category)
    requires categories.key == CategoryKey
    modifies categories
    ensures created == category.(id := NextId(old(categories.records), CategoryKey))
    ensures categories.records == old(categories.records) + [created]
    ensures UniqueKeys(old(categories.records), CategoryKey) && BelowIdLimit(old(categories.records), CategoryKey) ==>
      UniqueKeys(categories.records, CategoryKey)
  {
    created := category.(id := NextId(categories.records, categories.key));
    CreateKeepsKeysUnique(categories.records, CategoryKey, created);
    categories.Insert(created);
  }

  method CreateProduct(products: Collection<Product>, product: Product) returns (created: Product)
    requires products.key == ProductKey
    modifies products
    ensures created.id == NextId(old(products.records), ProductKey)
    ensures VariationsAssigned(product.hasVariations, product.variations, created.variations)
    ensures created == product.(id := created.id, variations := created.variations)
    ensures products.records == old(products.records) + [created]
    ensures UniqueKeys(old(products.records), ProductKey) && BelowIdLimit(old(products.records), ProductKey) ==>
      UniqueKeys(products.records, ProductKey)
  {
    var id := NextId(products.records, products.key);
    var variations := AssignVariationIds(product.hasVariations, product.variations);
    created := product.(id := id, variations := variations);
    CreateKeepsKeysUnique(products.records, ProductKey, created);
    products.Insert(created);
  }

  /** Why `/createOrder` fails: `DateTime.ParseExact` rejected the date string. */
  datatype OrderError = MalformedOrderDate

  /** `parse` stands for `DateTime.ParseExact(s, "yyyy-MM-dd / HH:mm", null)`, giving
      seconds since 0001-01-01, or None where the library throws. The exception
      escapes the handler before the insert, so a malformed date stores nothing. */
  method CreateOrder(orders: Collection<Order>, order: Order, parse: string -> Option<nat>)
    returns (r: Result<Order, OrderError>)
    requires orders.key == OrderKey
    modifies orders
    ensures parse(order.orderDateString).None? ==>
      r == Err(MalformedOrderDate) && orders.records == old(orders.records)
    ensures parse(order.orderDateString).Some? ==>
      r.Ok? &&
      r.value.id == NextId(old(orders.records), OrderKey) &&
      r.value.orderDate == parse(order.orderDateString).value &&
      VariationsAssigned(order.hasVariations, order.variations, r.value.variations) &&
      r.value == order.(id := r.value.id, orderDate := r.value.orderDate, variations := r.value.variations) &&
      orders.records == old(orders.records) + [r.value]
    ensures r.Ok? && UniqueKeys(old(orders.records), OrderKey) && BelowIdLimit(old(orders.records), OrderKey) ==>
      UniqueKeys(orders.records, OrderKey)
  {
    var id := NextId(orders.records, orders.key);
    match parse(order.orderDateString)
    case None =>
      r := Err(MalformedOrderDate);
    case Some(orderDate) =>
      var variations := AssignVariationIds(order.hasVariations, order.variations);
      var created := order.(id := id, orderDate := orderDate, variations := variations);
      CreateKeepsKeysUnique(orders.records, OrderKey, created);
      orders.Insert(created);
      r := Ok(created);
  }

  method CreateSettings(settings: Collection<Settings>, s: Settings) returns (created: Settings)
    requires settings.key == SettingsKey
    modifies settings
    ensures created == s.(id := NextId(old(settings.records), SettingsKey))
    ensures settings.records == old(settings.records) + [created]
    ensures UniqueKeys(old(settings.records), SettingsKey) && BelowIdLimit(old(settings.records), SettingsKey) ==>
      UniqueKeys(settings.records, SettingsKey)
  {
    created := s.(id := NextId(settings.records, settings.key));
    CreateKeepsKeysUnique(settings.records, SettingsKey, created);
    settings.Insert(created);
  }

  /** Both the username and the supplied password hash are equal, character for character. */
  predicate Matches(a: Admin, req: LoginRequest)
  {
    a.username == req.username && a.passwordHash == req.passwordHash
  }

  function ProfileOf(a: Admin): Profile
  {
    Profile(a.id, a.firstName, a.lastName, a.restaurantName, a.username)
  }

  /** `/login`: the profile of the first admin matching both credentials, or
      None (Unauthorized) when no admin matches. */
  function Login(admins: seq<Admin>, req: LoginRequest): (r: Option<Profile>)
    ensures r.None? <==> forall i :: 0 <= i < |admins| ==> !Matches(admins[i], req)
    ensures r.Some? ==>
      exists i :: 0 <= i < |admins| && Matches(admins[i], req) && r.value == ProfileOf(admins[i]) &&
        (forall j :: 0 <= j < i ==> !Matches(admins[j], req))
    decreases |admins|
  {
    if admins == [] then None
    else if Matches(admins[0], req) then Some(ProfileOf(admins[0]))
    else
      assert forall i :: 1 <= i < |admins| ==> admins[i] == admins[1..][i - 1];
      Login(admins[1..], req)
  }
}

=== FILE: records.dfy ===
/** The persisted entities of the point-of-sale backend: administrators,
    categories, products with their variations, orders and settings. */
module Records {
  import opened Wrappers

  /** The C# `int` every record id is declared with. */
  type Int32 = x: int | -0x8000_0000 <= x <= 0x7fff_ffff

  const IntMin: Int32 := -0x8000_0000
  const IntMax: Int32 := 0x7fff_ffff

  /** `x + 1` on a C# `int` in the default unchecked context: the exact sum cut
      down to 32-bit two's complement, which wraps int.MaxValue to int.MinValue. */
  function Inc32(x: Int32): (r: Int32)
    ensures r == (x - IntMin + 1) % 0x1_0000_0000 + IntMin
    ensures x < IntMax ==> r == x + 1
    ensures x == IntMax ==> r == IntMin
  {
    if x == IntMax then IntMin else x + 1
  }

  /** A `List<Variation>`: a .NET list never holds more than int.MaxValue items. */
  type VariationList = s: seq<Variation> | |s| <= 0x7fff_ffff

  /** A priced sub-option of a product or of an order line; its id is local to the parent. */
  datatype Variation = Variation(id: Int32, name: string, price: real)

  datatype Admin = Admin(
    id: Int32,
    firstName: string,
    lastName: string,
    restaurantName: string,
    username: string,
    passwordHash: string)

  datatype Category = Category(id: Int32, name: string, imageUrl: string)

  /** `variations` is None when the client sent no list (a null `List<Variation>`). */
  datatype Product = Product(
    id: Int32,
    name: string,
    description: string,
    imageUrl: string,
    price: real,
    inStoreTaxRate: real,
    outStoreTaxRate: real,
    categoryId: Int32,
    hasVariations: bool,
    variations: Option<VariationList>)

  /** `orderDate` is the parsed `orderDateString`, in seconds since 0001-01-01 00:00:00;
      `taxValue` is a percentage (2.6 means 2.6%). */
  datatype Order = Order(
    id: Int32,
    categoryName: string,
    productName: string,
    quantity: Int32,
    price: real,
    taxFreePrice: real,
    totalPrice: real,
    netPrice: real,
    grossPrice: real,
    paymentType: string,
    hasVariations: bool,
    variations: Option<VariationList>,
    orderDateString: string,
    orderDate: nat,
    taxValue: real)

  datatype Settings = Settings(id: Int32, reportPassword: string)

  datatype LoginRequest = LoginRequest(username: string, passwordHash: string)

  /** What a successful login returns: the admin without the password hash. */
  datatype Profile = Profile(
    id: Int32,
    firstName: string,
    lastName: string,
    restaurantName: string,
    username: string)

  // The id of each entity, the key its collection is searched and sorted by.
  function AdminKey(a: Admin): Int32 { a.id }
  function CategoryKey(c: Category): Int32 { c.id }
  function ProductKey(p: Product): Int32 { p.id }
  function OrderKey(o: Order): Int32 { o.id }
  function SettingsKey(s: Settings): Int32 { s.id }
}

=== FILE: sequence_assigner.dfy ===
/** The id assigner used by every create handler: read the record with the
    highest id (sort descending, take the first) and add one, or start at 1. */
module SequenceAssigner {
  import opened Records

  /** Every id in the collection is below int.MaxValue, so adding one cannot wrap. */
  ghost predicate BelowIdLimit<R>(rs: seq<R>, key: R -> Int32)
  {
    forall i :: 0 <= i < |rs| ==> key(rs[i]) < IntMax
  }

  /** The id of the first record of the collection sorted by descending id. */
  function MaxKey<R>(rs: seq<R>, key: R -> Int32): (m: Int32)
    requires rs != []
    ensures exists i :: 0 <= i < |rs| && key(rs[i]) == m
    ensures forall i :: 0 <= i < |rs| ==> key(rs[i]) <= m
    decreases |rs|
  {
    if |rs| == 1 then key(rs[0])
    else
      var rest := MaxKey(rs[1..], key);
      assert forall i :: 1 <= i < |rs| ==> rs[i] == rs[1..][i - 1];
      if key(rs[0]) >= rest then key(rs[0]) else rest
  }

  /** The id a create handler gives its new record. */
  function NextId<R>(rs: seq<R>, key: R -> Int32): (n: Int32)
    ensures rs == [] ==> n == 1
    ensures rs != [] && BelowIdLimit(rs, key) ==>
      exists i :: 0 <= i < |rs| && key(rs[i]) + 1 == n
    ensures BelowIdLimit(rs, key) ==> forall i :: 0 <= i < |rs| ==> key(rs[i]) < n
    ensures !BelowIdLimit(rs, key) ==> n == IntMin
  {
    if rs == [] then 1 else Inc32(MaxKey(rs, key))
  }

  /** Ids 1, 3 and 5 give 6: the maximum plus one, not the count plus one. */
  lemma NextIdIsMaxPlusOne()
    ensures NextId([Category(1, "", ""), Category(3, "", ""), Category(5, "", "")], CategoryKey) == 6
  {
  }

  /** Once int.MaxValue is taken, every later create receives int.MinValue:
      the second of two such creates repeats the first one's id. */
  lemma IdRepeatsAfterWrap<R>(rs: seq<R>, key: R -> Int32, created: R)
    requires !BelowIdLimit(rs, key)
    requires key(created) == NextId(rs, key)
    ensures NextId(rs + [created], key) == key(created) == IntMin
  {
    var i :| 0 <= i < |rs| && key(rs[i]) >= IntMax;
    assert (rs + [created])[i] == rs[i];
  }
}

=== FILE: store.dfy ===
/** One document collection of the store (admins, categories, products,
    orders or settings) seen as a sequence of records in store order, with the
    single-document operations the handlers call: find, insert, replace, delete. */
module Store {
  import opened Wrappers
  import opened Records
  import opened SequenceAssigner

  /** Record i is the first whose key is `id`: what `Find(x => x.Id == id).FirstOrDefault()`,
      `ReplaceOne` and `DeleteOne` act on. */
  ghost predicate FirstMatch<R>(rs: seq<R>, key: R -> Int32, id: Int32, i: nat)
  {
    i < |rs| && key(rs[i]) == id && forall j :: 0 <= j < i ==> key(rs[j]) != id
  }

  ghost predicate Absent<R>(rs: seq<R>, key: R -> Int32, id: Int32)
  {
    forall i :: 0 <= i < |rs| ==> key(rs[i]) != id
  }

  /** No two records share an id. */
  ghost predicate UniqueKeys<R>(rs: seq<R>, key: R -> Int32)
  {
    forall i, j :: 0 <= i < j < |rs| ==> key(rs[i]) != key(rs[j])
  }

  /** The position of the first record whose key is `id`, if any. */
  function FirstIndex<R>(rs: seq<R>, key: R -> Int32, id: Int32): (r: Option<nat>)
    ensures r.None? <==> Absent(rs, key, id)
    ensures r.Some? ==> FirstMatch(rs, key, id, r.value)
    decreases |rs|
  {
    if rs == [] then None
    else if key(rs[0]) == id then Some(0)
    else
      assert forall i :: 1 <= i < |rs| ==> rs[i] == rs[1..][i - 1];
      match FirstIndex(rs[1..], key, id)
      case None => None
      case Some(i) => Some(i + 1)
  }

  /** A record inserted with the assigned id is found again by that id, at the end. */
  lemma CreatedIsFound<R>(rs: seq<R>, key: R -> Int32, created: R)
    requires BelowIdLimit(rs, key)
    requires key(created) == NextId(rs, key)
    ensures FirstIndex(rs + [created], key, key(created)) == Some(|rs|)
  {
    var all := rs + [created];
    forall j | 0 <= j < |rs| ensures key(all[j]) != key(created) {
      assert all[j] == rs[j];
    }
    assert FirstMatch(all, key, key(created), |rs|);
  }

  /** Inserting a record with the assigned id keeps ids unique while no id has reached int.MaxValue. */
  lemma CreateKeepsKeysUnique<R>(rs: seq<R>, key: R -> Int32, created: R)
    requires key(created) == NextId(rs, key)
    ensures UniqueKeys(rs, key) && BelowIdLimit(rs, key) ==> UniqueKeys(rs + [created], key)
  {
  }

  /** A typed collection handle; `key` reads the record's id. */
  class Collection<R(==)> {
    const key: R -> Int32
    var records: seq<R>

    constructor (key: R -> Int32)
      ensures this.key == key && records == []
    {
      this.key := key;
      records := [];
    }

    /** `Find(_ => true).ToListAsync()`: every record, in store order. */
    method GetAll() returns (rs: seq<R>)
      ensures rs == records
    {
      rs := records;
    }

    /** `Find(_ => true).FirstOrDefaultAsync()`: the first record, or nothing when empty. */
    method First() returns (r: Option<R>)
      ensures r.None? <==> records == []
      ensures r.Some? ==> records != [] && r.value == records[0]
    {
      r := if records == [] then None else Some(records[0]);
    }

    /** `Find(x => x.Id == id).FirstOrDefaultAsync()`: the first record with that id, or not found. */
    method Get(id: Int32) returns (r: Option<R>)
      ensures r.None? <==> Absent(records, key, id)
      ensures r.Some? ==> exists i: nat :: FirstMatch(records, key, id, i) && r.value == records[i]
    {
      match FirstIndex(records, key, id)
      case None => r := None;
      case Some(i) => r := Some(records[i]);
    }

    /** `InsertOneAsync`: the record goes at the end of the collection. */
    method Insert(r: R)
      modifies this
      ensures records == old(records) + [r]
    {
      records := records + [r];
    }

    /** `ReplaceOneAsync(x => x.Id == id, updated)` followed by the handler's
        `ModifiedCount > 0 ? Ok(updated) : NotFound()`. The first record with that id
        is overwritten by the whole supplied record; the answer is Ok only when a record
        matched and the stored document actually changed. */
    method Replace(id: Int32, updated: R) returns (r: Option<R>)
      modifies this
      ensures Absent(old(records), key, id) ==> r.None? && records == old(records)
      ensures forall i: nat :: FirstMatch(old(records), key, id, i) ==>
        records == old(records)[i := updated] &&
        (r.Some? <==> old(records)[i] != updated)
      ensures r.Some? ==> r.value == updated
    {
      match FirstIndex(records, key, id)
      case None => r := None;
      case Some(i) =>
        var modified := records[i] != updated;
        records := records[i := updated];
        r := if modified then Some(updated) else None;
    }

    /** `DeleteOneAsync(x => x.Id == id)` followed by `DeletedCount > 0 ? Ok() : NotFound()`:
        removes the first record with that id, or reports not found and changes nothing. */
    method Delete(id: Int32) returns (deleted: bool)
      modifies this
      ensures deleted <==> !Absent(old(records), key, id)
      ensures !deleted ==> records == old(records)
      ensures forall i: nat :: FirstMatch(old(records), key, id, i) ==>
        records == old(records)[..i] + old(records)[i + 1..]
    {
      match FirstIndex(records, key, id)
      case None => deleted := false;
      case Some(i) =>
        records := records[..i] + records[i + 1..];
        deleted := true;
    }
  }
}

=== FILE: wrappers.dfy ===
/** Absent-or-present values and success-or-error results, used where the
    source returns null, NotFound or lets an exception escape. */
module Wrappers {

  datatype Option<+T> = None | Some(value: T)

  datatype Result<+T, +E> = Ok(value: T) | Err(error: E)
}

=== FILE: zreport.dfy ===
/** The end-of-day ("Z") report: the orders of one calendar day, their total,
    the gross/net/tax split of the two KDV (VAT) rates, and the per-category totals. */
module ZReport {
  import opened Wrappers
  import opened Records

  const SecondsPerDay: nat := 86400

  // ---------------------------------------------------------------- the day window

  /** `reportDate.Date`: midnight at the start of the timestamp's day. */
  function DayStart(t: nat): (s: nat)
    ensures s <= t < s + SecondsPerDay
    ensures s % SecondsPerDay == 0
  {
    t - t % SecondsPerDay
  }

  /** `reportDate.Date.AddHours(23).AddMinutes(59).AddSeconds(59)`. */
  function DayEnd(t: nat): (e: nat)
    ensures e == DayStart(t) + SecondsPerDay - 1
  {
    DayStart(t) + 23 * 3600 + 59 * 60 + 59
  }

  /** The closed window [00:00:00, 23:59:59] holds exactly the seconds of the report's calendar day. */
  lemma SameDay(t: nat, x: nat)
    ensures DayStart(t) <= x <= DayEnd(t) <==> DayStart(x) == DayStart(t)
  {
  }

  // ---------------------------------------------------------------- filtering and sums

  /** LINQ `Where` (and a store `Find` with a filter): the elements satisfying `p`, in order. */
  function Where(s: seq<Order>, p: Order -> bool): (r: seq<Order>)
    ensures |r| <= |s|
    ensures forall x :: x in r <==> x in s && p(x)
    decreases |s|
  {
    if s == [] then []
    else if p(s[0]) then [s[0]] + Where(s[1..], p)
    else Where(s[1..], p)
  }

  /** `Where` keeps every element satisfying `p` as many times as it occurs, and no other. */
  lemma {:induction false} WhereCounts(s: seq<Order>, p: Order -> bool)
    ensures forall x :: multiset(Where(s, p))[x] == if p(x) then multiset(s)[x] else 0
    decreases |s|
  {
    if s != [] {
      WhereCounts(s[1..], p);
      assert s == [s[0]] + s[1..];
    }
  }

  /** `Where` keeps the relative order of the elements it keeps: the kept elements
      of a concatenation are those of each part, one after the other. */
  lemma {:induction false} WhereAppend(s: seq<Order>, t: seq<Order>, p: Order -> bool)
    ensures Where(s + t, p) == Where(s, p) + Where(t, p)
    decreases |s|
  {
    if s == [] {
      assert s + t == t;
    } else {
      var u := s + t;
      assert u[0] == s[0] && u[1..] == s[1..] + t;
      WhereAppend(s[1..], t, p);
      if p(s[0]) {
        calc {
          Where(u, p);
          [s[0]] + Where(s[1..] + t, p);
          [s[0]] + (Where(s[1..], p) + Where(t, p));
          ([s[0]] + Where(s[1..], p)) + Where(t, p);
        }
      }
    }
  }

  /** LINQ `Sum(o => o.TotalPrice)`; zero for no orders. */
  function SumTotal(os: seq<Order>): real
    decreases |os|
  {
    if os == [] then 0.0 else os[0].totalPrice + SumTotal(os[1..])
  }

  /** The total of two runs of orders is the sum of their totals, whichever way they are split. */
  lemma {:induction false} SumTotalAppend(s: seq<Order>, t: seq<Order>)
    ensures SumTotal(s + t) == SumTotal(s) + SumTotal(t)
    decreases |s|
  {
    if s == [] {
      assert s + t == t;
    } else {
      assert (s + t)[1..] == s[1..] + t;
      SumTotalAppend(s[1..], t);
    }
  }

  predicate InWindow(o: Order, start: nat, end: nat)
  {
    start <= o.orderDate <= end
  }

  /** The orders the report reads: `o.OrderDate >= startTime && o.OrderDate <= endTime`. */
  function DayOrders(orders: seq<Order>, reportDate: nat): seq<Order>
  {
    var start, end := DayStart(reportDate), DayEnd(reportDate);
    Where(orders, (o: Order) => InWindow(o, start, end))
  }

  /** An order is in the report exactly when it was placed on the report's calendar day. */
  lemma DayOrdersAreThatDay(orders: seq<Order>, reportDate: nat, o: Order)
    ensures o in DayOrders(orders, reportDate) <==>
      o in orders && DayStart(reportDate) <= o.orderDate <= DayStart(reportDate) + SecondsPerDay - 1
    ensures o in DayOrders(orders, reportDate) <==>
      o in orders && DayStart(o.orderDate) == DayStart(reportDate)
  {
  }

  // ---------------------------------------------------------------- tax groups

  /** A KDV tier: the label printed (`Oran`), the `TaxValue` an order must equal exactly
      (a percentage), and the fraction the gross is divided by, as `1 + fraction`. */
  datatype TaxRate = TaxRate(name: string, value: real, fraction: real)

  const Kdv81: TaxRate := TaxRate("8.1% KDV A", 8.1, 0.081)
  const Kdv26: TaxRate := TaxRate("2.6% KDV B", 2.6, 0.026)

  /** `orders.Where(o => o.TaxValue == rate)`. */
  function TaxGroup(os: seq<Order>, rate: TaxRate): seq<Order>
  {
    Where(os, (o: Order) => o.taxValue == rate.value)
  }

  /** The orders neither tax group takes. */
  function OtherRates(os: seq<Order>): seq<Order>
  {
    Where(os, (o: Order) => o.taxValue != Kdv26.value && o.taxValue != Kdv81.value)
  }

  /** Every order lands in exactly one of: the 2.6 group, the 8.1 group, the rest.
      So the groups are disjoint, and the rest still counts in the day's totals. */
  lemma {:induction false} TaxGroupsPartition(os: seq<Order>)
    ensures forall o :: o in TaxGroup(os, Kdv26) ==> o in os && o !in TaxGroup(os, Kdv81)
    ensures forall o :: o in TaxGroup(os, Kdv81) ==> o in os && o !in TaxGroup(os, Kdv26)
    ensures |os| == |TaxGroup(os, Kdv26)| + |TaxGroup(os, Kdv81)| + |OtherRates(os)|
    ensures SumTotal(os) ==
      SumTotal(TaxGroup(os, Kdv26)) + SumTotal(TaxGroup(os, Kdv81)) + SumTotal(OtherRates(os))
    decreases |os|
  {
    if os != [] {
      TaxGroupsPartition(os[1..]);
    }
  }

  /** One line of the `Vergiler` (taxes) section. */
  datatype TaxLine = TaxLine(rate: string, gross: real, net: real, tax: real)

  /** gross = sum of TotalPrice; net = gross / (1 + fraction); tax = gross - net. */
  function Breakdown(rate: TaxRate, group: seq<Order>): (t: TaxLine)
    requires rate.fraction > -1.0
    ensures t.rate == rate.name && t.gross == SumTotal(group)
    ensures t.net * (1.0 + rate.fraction) == t.gross
    ensures t.net + t.tax == t.gross
  {
    var gross := SumTotal(group);
    var net := gross / (1.0 + rate.fraction);
    TaxLine(rate.name, gross, net, gross - net)
  }

  // ---------------------------------------------------------------- category groups

  /** One element of `GroupBy(o => o.CategoryName).Select(...)`. */
  datatype CategoryTotal = CategoryTotal(categoryName: string, orderCount: nat, totalAmount: real)

  /** Fold one order into the groups: add it to its category's group, or open a
      new group at the end (so groups come in order of first appearance). */
  function AddToGroups(gs: seq<CategoryTotal>, o: Order): seq<CategoryTotal>
    decreases |gs|
  {
    if gs == [] then [CategoryTotal(o.categoryName, 1, o.totalPrice)]
    else if gs[0].categoryName == o.categoryName then
      [gs[0].(orderCount := gs[0].orderCount + 1, totalAmount := gs[0].totalAmount + o.totalPrice)] + gs[1..]
    else [gs[0]] + AddToGroups(gs[1..], o)
  }

  function GroupInto(gs: seq<CategoryTotal>, os: seq<Order>): seq<CategoryTotal>
    decreases |os|
  {
    if os == [] then gs else GroupInto(AddToGroups(gs, os[0]), os[1..])
  }

  /** `orders.GroupBy(o => o.CategoryName).Select(g => {Key, Count(), Sum(TotalPrice)})`. */
  function GroupByCategory(os: seq<Order>): seq<CategoryTotal>
  {
    GroupInto([], os)
  }

  /** `orders.Where(o => o.CategoryName == name)`: the reference the groups are checked against. */
  function OfCategory(os: seq<Order>, name: string): seq<Order>
  {
    Where(os, (o: Order) => o.categoryName == name)
  }

  function CountSum(gs: seq<CategoryTotal>): nat
    decreases |gs|
  {
    if gs == [] then 0 else gs[0].orderCount + CountSum(gs[1..])
  }

  function AmountSum(gs: seq<CategoryTotal>): real
    decreases |gs|
  {
    if gs == [] then 0.0 else gs[0].totalAmount + AmountSum(gs[1..])
  }

  /** The count of the group named `name`, 0 when there is none. */
  function CountOf(gs: seq<CategoryTotal>, name: string): nat
    decreases |gs|
  {
    if gs == [] then 0
    else if gs[0].categoryName == name then gs[0].orderCount
    else CountOf(gs[1..], name)
  }

  /** The amount of the group named `name`, 0 when there is none. */
  function AmountOf(gs: seq<CategoryTotal>, name: string): real
    decreases |gs|
  {
    if gs == [] then 0.0
    else if gs[0].categoryName == name then gs[0].totalAmount
    else AmountOf(gs[1..], name)
  }

  /** The category names that have a group. */
  function Names(gs: seq<CategoryTotal>): (ns: set<string>)
    ensures forall i :: 0 <= i < |gs| ==> gs[i].categoryName in ns
    ensures forall n :: n in ns ==> exists i :: 0 <= i < |gs| && gs[i].categoryName == n
    decreases |gs|
  {
    if gs == [] then {}
    else
      assert forall i :: 1 <= i < |gs| ==> gs[i] == gs[1..][i - 1];
      {gs[0].categoryName} + Names(gs[1..])
  }

  /** No category name has two groups. */
  predicate DistinctNames(gs: seq<CategoryTotal>)
    decreases |gs|
  {
    gs == [] || (gs[0].categoryName !in Names(gs[1..]) && DistinctNames(gs[1..]))
  }

  predicate NonEmptyGroups(gs: seq<CategoryTotal>)
  {
    forall i :: 0 <= i < |gs| ==> gs[i].orderCount >= 1
  }

  lemma {:induction false} AddToGroupsTotals(gs: seq<CategoryTotal>, o: Order)
    ensures CountSum(AddToGroups(gs, o)) == CountSum(gs) + 1
    ensures AmountSum(AddToGroups(gs, o)) == AmountSum(gs) + o.totalPrice
    decreases |gs|
  {
    if gs != [] {
      if gs[0].categoryName == o.categoryName {
        assert AddToGroups(gs, o)[1..] == gs[1..];
      } else {
        AddToGroupsTotals(gs[1..], o);
        assert AddToGroups(gs, o)[1..] == AddToGroups(gs[1..], o);
      }
    }
  }

  /** The order is counted in the first group of its own category and in no other. */
  lemma {:induction false} AddToGroupsOf(gs: seq<CategoryTotal>, o: Order, n: string)
    ensures CountOf(AddToGroups(gs, o), n) == CountOf(gs, n) + (if o.categoryName == n then 1 else 0)
    ensures AmountOf(AddToGroups(gs, o), n) == AmountOf(gs, n) + (if o.categoryName == n then o.totalPrice else 0.0)
    decreases |gs|
  {
    if gs != [] {
      if gs[0].categoryName == o.categoryName {
        assert AddToGroups(gs, o)[1..] == gs[1..];
      } else {
        AddToGroupsOf(gs[1..], o, n);
        assert AddToGroups(gs, o)[1..] == AddToGroups(gs[1..], o);
      }
    }
  }

  lemma {:induction false} AddToGroupsNames(gs: seq<CategoryTotal>, o: Order)
    ensures Names(AddToGroups(gs, o)) == Names(gs) + {o.categoryName}
    decreases |gs|
  {
    if gs != [] {
      if gs[0].categoryName == o.categoryName {
        assert AddToGroups(gs, o)[1..] == gs[1..];
      } else {
        AddToGroupsNames(gs[1..], o);
        assert AddToGroups(gs, o)[1..] == AddToGroups(gs[1..], o);
      }
    }
  }

  lemma {:induction false} AddToGroupsDistinct(gs: seq<CategoryTotal>, o: Order)
    requires DistinctNames(gs)
    ensures DistinctNames(AddToGroups(gs, o))
    decreases |gs|
  {
    if gs != [] {
      if gs[0].categoryName == o.categoryName {
        assert AddToGroups(gs, o)[1..] == gs[1..];
      } else {
        AddToGroupsNames(gs[1..], o);
        AddToGroupsDistinct(gs[1..], o);
        assert AddToGroups(gs, o)[1..] == AddToGroups(gs[1..], o);
      }
    }
  }

  lemma {:induction false} AddToGroupsNonEmpty(gs: seq<CategoryTotal>, o: Order)
    requires NonEmptyGroups(gs)
    ensures NonEmptyGroups(AddToGroups(gs, o))
    decreases |gs|
  {
    var added := AddToGroups(gs, o);
    if gs != [] {
      if gs[0].categoryName == o.categoryName {
        assert added[1..] == gs[1..];
        forall i | 1 <= i < |added| ensures added[i].orderCount >= 1 {
          assert added[i] == gs[i];
        }
      } else {
        var rest := gs[1..];
        assert NonEmptyGroups(rest) by {
          forall i | 0 <= i < |rest| ensures rest[i].orderCount >= 1 {
            assert rest[i] == gs[i + 1];
          }
        }
        AddToGroupsNonEmpty(rest, o);
        assert added[1..] == AddToGroups(rest, o);
        forall i | 1 <= i < |added| ensures added[i].orderCount >= 1 {
          assert added[i] == AddToGroups(rest, o)[i - 1];
        }
      }
    }
  }

  lemma {:induction false} GroupIntoTotals(gs: seq<CategoryTotal>, os: seq<Order>)
    ensures CountSum(GroupInto(gs, os)) == CountSum(gs) + |os|
    ensures AmountSum(GroupInto(gs, os)) == AmountSum(gs) + SumTotal(os)
    decreases |os|
  {
    if os != [] {
      AddToGroupsTotals(gs, os[0]);
      GroupIntoTotals(AddToGroups(gs, os[0]), os[1..]);
    }
  }

  lemma {:induction false} GroupIntoOf(gs: seq<CategoryTotal>, os: seq<Order>, n: string)
    ensures CountOf(GroupInto(gs, os), n) == CountOf(gs, n) + |OfCategory(os, n)|
    ensures AmountOf(GroupInto(gs, os), n) == AmountOf(gs, n) + SumTotal(OfCategory(os, n))
    decreases |os|
  {
    if os != [] {
      AddToGroupsOf(gs, os[0], n);
      GroupIntoOf(AddToGroups(gs, os[0]), os[1..], n);
    }
  }

  lemma {:induction false} GroupIntoNames(gs: seq<CategoryTotal>, os: seq<Order>)
    ensures Names(GroupInto(gs, os)) == Names(gs) + set o | o in os :: o.categoryName
    ensures DistinctNames(gs) ==> DistinctNames(GroupInto(gs, os))
    ensures NonEmptyGroups(gs) ==> NonEmptyGroups(GroupInto(gs, os))
    decreases |os|
  {
    if os != [] {
      var next := AddToGroups(gs, os[0]);
      AddToGroupsNames(gs, os[0]);
      if DistinctNames(gs) { AddToGroupsDistinct(gs, os[0]); }
      if NonEmptyGroups(gs) { AddToGroupsNonEmpty(gs, os[0]); }
      GroupIntoNames(next, os[1..]);
      CategoryNamesSplit(os);
    }
  }

  lemma CategoryNamesSplit(os: seq<Order>)
    requires os != []
    ensures (set o | o in os :: o.categoryName) ==
      {os[0].categoryName} + set o | o in os[1..] :: o.categoryName
  {
  }

  /** With distinct names, the count and amount of the group at position i are its own. */
  lemma {:induction false} GroupAt(gs: seq<CategoryTotal>, i: nat)
    requires DistinctNames(gs) && i < |gs|
    ensures CountOf(gs, gs[i].categoryName) == gs[i].orderCount
    ensures AmountOf(gs, gs[i].categoryName) == gs[i].totalAmount
    decreases i
  {
    if i > 0 {
      assert gs[1..][i - 1] == gs[i];
      GroupAt(gs[1..], i - 1);
    }
  }

  /** The category groups of a set of orders: one group per category name that occurs,
      each with at least one order, counting and summing exactly that category's orders;
      so the counts add up to the number of orders and the amounts to their total. */
  lemma CategoryGroupsSpec(os: seq<Order>)
    ensures CountSum(GroupByCategory(os)) == |os|
    ensures AmountSum(GroupByCategory(os)) == SumTotal(os)
    ensures DistinctNames(GroupByCategory(os))
    ensures forall g :: g in GroupByCategory(os) ==> g.orderCount >= 1
    ensures Names(GroupByCategory(os)) == set o | o in os :: o.categoryName
    ensures forall g :: g in GroupByCategory(os) ==>
      g.orderCount == |OfCategory(os, g.categoryName)| &&
      g.totalAmount == SumTotal(OfCategory(os, g.categoryName))
  {
    var gs := GroupByCategory(os);
    GroupIntoTotals([], os);
    GroupIntoNames([], os);
    forall g | g in gs
      ensures g.orderCount >= 1
      ensures g.orderCount == |OfCategory(os, g.categoryName)|
      ensures g.totalAmount == SumTotal(OfCategory(os, g.categoryName))
    {
      var i :| 0 <= i < |gs| && gs[i] == g;
      GroupAt(gs, i);
      GroupIntoOf([], os, g.categoryName);
    }
  }

  // ---------------------------------------------------------------- the report

  /** `{ SiparişSayısı, Tutar }`: an order count and an amount. */
  datatype SalesTotal = SalesTotal(orderCount: nat, amount: real)

  /** `GünSonuRaporu`: window bounds, overall sales (`ToplamSatış`), the single
      food bucket (`AnaGruplar.Yiyecek`) and the two tax lines (`Vergiler`). */
  datatype Report = Report(
    start: nat,
    end: nat,
    totalSales: SalesTotal,
    food: SalesTotal,
    kdv81: TaxLine,
    kdv26: TaxLine)

  /** `/generateZReport`. The category groups are computed by the source but not
      placed in the report; see `CategoryGroups`. */
  function GenerateZReport(orders: seq<Order>, reportDate: nat): (r: Report)
    ensures r.start == DayStart(reportDate) && r.end == r.start + SecondsPerDay - 1
    ensures r.start <= reportDate <= r.end
    ensures r.totalSales == SalesTotal(|DayOrders(orders, reportDate)|, SumTotal(DayOrders(orders, reportDate)))
    ensures r.food == r.totalSales
    ensures r.kdv26.rate == "2.6% KDV B" && r.kdv81.rate == "8.1% KDV A"
    ensures r.kdv26.gross == SumTotal(TaxGroup(DayOrders(orders, reportDate), Kdv26))
    ensures r.kdv81.gross == SumTotal(TaxGroup(DayOrders(orders, reportDate), Kdv81))
    ensures r.kdv26.gross + r.kdv81.gross + SumTotal(OtherRates(DayOrders(orders, reportDate))) == r.totalSales.amount
    ensures r.kdv26.net * 1.026 == r.kdv26.gross && r.kdv26.net + r.kdv26.tax == r.kdv26.gross
    ensures r.kdv81.net * 1.081 == r.kdv81.gross && r.kdv81.net + r.kdv81.tax == r.kdv81.gross
  {
    var day := DayOrders(orders, reportDate);
    TaxGroupsPartition(day);
    var totalSales := SalesTotal(|day|, SumTotal(day));
    Report(
      DayStart(reportDate),
      DayEnd(reportDate),
      totalSales,
      totalSales,
      Breakdown(Kdv81, TaxGroup(day, Kdv81)),
      Breakdown(Kdv26, TaxGroup(day, Kdv26)))
  }

  /** `categoryGroups`: the day's orders grouped by category name. */
  function CategoryGroups(orders: seq<Order>, reportDate: nat): (gs: seq<CategoryTotal>)
    ensures CountSum(gs) == GenerateZReport(orders, reportDate).totalSales.orderCount
    ensures AmountSum(gs) == GenerateZReport(orders, reportDate).totalSales.amount
    ensures DistinctNames(gs) && NonEmptyGroups(gs)
  {
    var day := DayOrders(orders, reportDate);
    CategoryGroupsSpec(day);
    GroupByCategory(day)
  }

  /** A day without orders reports zero everywhere. */
  lemma EmptyDayReport(orders: seq<Order>, reportDate: nat)
    requires forall i :: 0 <= i < |orders| ==> !InWindow(orders[i], DayStart(reportDate), DayEnd(reportDate))
    ensures GenerateZReport(orders, reportDate).totalSales == SalesTotal(0, 0.0)
    ensures GenerateZReport(orders, reportDate).kdv26 == TaxLine("2.6% KDV B", 0.0, 0.0, 0.0)
    ensures GenerateZReport(orders, reportDate).kdv81 == TaxLine("8.1% KDV A", 0.0, 0.0, 0.0)
  {
  }

  /** An order of the given total, tax value and time; the other fields do not enter the report. */
  function SampleOrder(id: Int32, totalPrice: real, taxValue: real, orderDate: nat): Order
  {
    Order(id, "Yiyecek", "", 1, totalPrice, 0.0, totalPrice, 0.0, 0.0, "", false, None, "", orderDate, taxValue)
  }

  /** Orders of 100 and 200 at 8.1 and of 50 at 2.6 on day 2, then one order of day 1. */
  const ExampleOrders: seq<Order> := [
    SampleOrder(1, 100.0, 8.1, 2 * SecondsPerDay + 36000),
    SampleOrder(2, 200.0, 8.1, 2 * SecondsPerDay + 43200),
    SampleOrder(3, 50.0, 2.6, 3 * SecondsPerDay - 60),
    SampleOrder(4, 70.0, 8.1, 2 * SecondsPerDay - 60)]

  lemma ExampleWindow()
    ensures DayStart(2 * SecondsPerDay + 50000) == 2 * SecondsPerDay
    ensures DayEnd(2 * SecondsPerDay + 50000) == 3 * SecondsPerDay - 1
    ensures InWindow(ExampleOrders[0], 2 * SecondsPerDay, 3 * SecondsPerDay - 1)
    ensures InWindow(ExampleOrders[1], 2 * SecondsPerDay, 3 * SecondsPerDay - 1)
    ensures InWindow(ExampleOrders[2], 2 * SecondsPerDay, 3 * SecondsPerDay - 1)
    ensures !InWindow(ExampleOrders[3], 2 * SecondsPerDay, 3 * SecondsPerDay - 1)
  {
  }

  lemma ExampleDay()
    ensures DayStart(2 * SecondsPerDay + 50000) == 2 * SecondsPerDay
    ensures DayOrders(ExampleOrders, 2 * SecondsPerDay + 50000) == ExampleOrders[..3]
  {
    ExampleWindow();
    var os, d := ExampleOrders, 2 * SecondsPerDay + 50000;
    var o1, o2, o3, o4 := os[0], os[1], os[2], os[3];
    assert DayOrders([o4], d) == [] by {
      assert [o4] == [o4] + [];
      DayOrdersCons(o4, [], d);
    }
    assert DayOrders([o3, o4], d) == [o3] by {
      assert [o3, o4] == [o3] + [o4];
      DayOrdersCons(o3, [o4], d);
    }
    assert DayOrders([o2, o3, o4], d) == [o2, o3] by {
      assert [o2, o3, o4] == [o2] + [o3, o4];
      DayOrdersCons(o2, [o3, o4], d);
    }
    assert DayOrders(os, d) == [o1, o2, o3] by {
      assert os == [o1] + [o2, o3, o4];
      DayOrdersCons(o1, [o2, o3, o4], d);
    }
    assert os[..3] == [o1, o2, o3];
  }

  lemma ExampleSums()
    ensures SumTotal(ExampleOrders[..3]) == 350.0
    ensures SumTotal(TaxGroup(ExampleOrders[..3], Kdv81)) == 300.0
    ensures SumTotal(TaxGroup(ExampleOrders[..3], Kdv26)) == 50.0
  {
    var o1, o2, o3 := ExampleOrders[0], ExampleOrders[1], ExampleOrders[2];
    var day := ExampleOrders[..3];
    assert day == [o1] + [o2, o3] && [o2, o3] == [o2] + [o3] && [o3] == [o3] + [];
    assert TaxGroup(day, Kdv81) == [o1, o2] by {
      TaxGroupCons(o1, [o2, o3], Kdv81);
      TaxGroupCons(o2, [o3], Kdv81);
      TaxGroupCons(o3, [], Kdv81);
    }
    assert TaxGroup(day, Kdv26) == [o3] by {
      TaxGroupCons(o1, [o2, o3], Kdv26);
      TaxGroupCons(o2, [o3], Kdv26);
      TaxGroupCons(o3, [], Kdv26);
    }
    assert o1.totalPrice == 100.0 && o2.totalPrice == 200.0 && o3.totalPrice == 50.0;
    assert SumTotal([o3]) == 50.0 by {
      assert [o3][1..] == [];
    }
    assert SumTotal([o2, o3]) == 250.0 by {
      assert [o2, o3][1..] == [o3];
    }
    assert SumTotal([o2]) == 200.0 by {
      assert [o2][1..] == [];
    }
    assert SumTotal([o1, o2]) == 300.0 by {
      assert [o1, o2][1..] == [o2];
    }
  }

  /** The report of day 2 for `ExampleOrders`: 3 orders and 350 in sales; gross 300 at
      8.1 and 50 at 2.6, each net being the gross divided by 1.081 or 1.026. */
  lemma ZReportExample()
    ensures var r := GenerateZReport(ExampleOrders, 2 * SecondsPerDay + 50000);
      r.start == 2 * SecondsPerDay && r.end == 2 * SecondsPerDay + SecondsPerDay - 1 &&
      r.totalSales == SalesTotal(3, 350.0) && r.food == r.totalSales &&
      r.kdv81.gross == 300.0 && r.kdv81.net == 300.0 / 1.081 && r.kdv81.tax == 300.0 - 300.0 / 1.081 &&
      r.kdv26.gross == 50.0 && r.kdv26.net == 50.0 / 1.026 && r.kdv26.tax == 50.0 - 50.0 / 1.026
  {
    ExampleDay();
    ExampleSums();
    var r := GenerateZReport(ExampleOrders, 2 * SecondsPerDay + 50000);
    assert r.kdv81.gross == 300.0 && r.kdv26.gross == 50.0;
  }

  lemma DayOrdersCons(o: Order, os: seq<Order>, reportDate: nat)
    ensures DayOrders([o] + os, reportDate) ==
      if InWindow(o, DayStart(reportDate), DayEnd(reportDate)) then [o] + DayOrders(os, reportDate)
      else DayOrders(os, reportDate)
  {
    assert ([o] + os)[1..] == os;
  }

  lemma TaxGroupCons(o: Order, os: seq<Order>, rate: TaxRate)
    ensures TaxGroup([o] + os, rate) ==
      if o.taxValue == rate.value then [o] + TaxGroup(os, rate) else TaxGroup(os, rate)
  {
  }
}
